=== FILE: README.md ===
# Procedural animation: constraint solver model

This project is a Dafny model of the kinematic solver behind a 2-D procedurally
animated creature. A creature is a tree of **bodies**. Each body owns an
ordered chain of **joints** and a list of **constraints**. A joint may carry
child bodies, such as legs. Once per frame, a body's step does the following:

1. It runs its constraints in order.
2. It gives every joint after the first the heading of the segment arriving at it.
3. If the chain has at least two joints, the first joint copies the second
   joint's heading. Then, for each joint, the step pins each child body's
   first joint to an attachment position on that joint and steps the child.
   A chain of fewer than two joints stops after step 2, leaving its children
   alone.

The model covers three constraint kinds:

- the one-sided **distance** constraint: consecutive joints at most `distance`
  apart, relaxed by a lerp `rate`;
- the minimum-bend **angle** constraint over every window of three joints;
- the stateful **FABRIK** limb constraint. It chases a target kept by
  hysteresis, pins the last joint, runs a backward relaxation, pins the first
  joint, and re-spaces the chain with a rate-1 forward pass.

The model also covers the `Joint` constructors and the colour arithmetic
helpers.

Values are immutable. An operation that the program performs in place returns
the updated value instead. `f32` arithmetic is modelled over `real`.
Addition, subtraction, scaling, lerp, squared length and the perpendicular dot
product are modelled exactly.

The program takes square root, `from_angle`, `to_angle`, `angle_between` and
`normalize` from its maths library. Here they are the fields of a `Numerics`
record. Only three laws are assumed about them, through the predicate
`Numerics.Lawful`:

- the square root of a non-negative number is non-negative;
- it squares back to its argument;
- `from_angle` gives a unit vector.

Modules:

- `Vectors`: `Vec2`, `Numerics` and small vector lemmas.
- `Colors`: the colour extensions.
- `Skeleton`: the shared data model. It holds `Joint`, `Body`, the three
  constraint records, the `Constraint` union and `AttachmentPoint`.
- `Joints`: the joint constructors.
- `DistanceConstraints`, `AngleConstraints`, `FabrikConstraints`: the three
  constraints.
- `Bodies`: the body builders and the per-frame step.

Modelling decisions. The repository's files do not fit together as
written. The model resolves this as follows:

- `Joint` gets a `children: seq<Body>` field. `src/body.rs:77` iterates
  `joint.bodies`, but `Joint` in `src/joint.rs:4-9` declares no such field.
- `Constraint` is a union of the three kinds. Applying one takes an optional
  attachment point and returns the constraint with its updated state. Distance
  and angle constraints ignore the attachment point. This follows the limb
  constraint's signature (`src/constraints/fabrik_constraint.rs:87`) rather than
  the stateless trait in `src/constraints/constraint.rs:6`.
- `AttachmentPoint` is a position plus a heading. It is imported at
  `src/constraints/fabrik_constraint.rs:2` but defined in no file.
- The step takes an optional attachment point and hands it to the body's
  constraints. `apply_constraints` in `src/body.rs:52-54` declares no such
  parameter. The program's frame loop, however, calls
  `body.apply_constraints(None)` (`src/main.rs:193`). The model's parameter
  follows that caller, and under the program's own call the root's limb
  constraints receive no attachment point either.
- Children are stepped without an attachment point, as `src/body.rs:84` does.
  Under the code as written, every limb constraint therefore receives none,
  the root's included, and does nothing. `Bodies.LimbsWithoutAttachmentAreInert`
  proves the list-level form of this: without an attachment point, a list made
  only of limb constraints changes neither the chain nor the constraints.
- The limb constraint's backward distance mode is named at
  `src/constraints/fabrik_constraint.rs:79`. `src/constraints/distance_constraint.rs`
  has no direction field and no backward mode. The backward mode is therefore
  a parameter, `FabrikConstraints.BackwardPass`. It gives each joint's new
  position, so by construction it changes positions only and keeps the chain's
  length.
- The recursion into child bodies terminates on a ghost `shape` body. The
  pinned child is not a sub-term of its parent, but it has the same tree of
  children as the original.
- `Bodies.Stepped` states what a step produces, at every depth.

Two behaviours follow the code rather than what a reader might expect:

- The limb constraint without an attachment point returns silently and
  changes nothing (`src/constraints/fabrik_constraint.rs:88-90`). It does not
  report an error, although a missing attachment point is a caller mistake
  that leaves the limb away from its target.
- Normalizing a zero vector is not given a fallback direction. `normalize` is
  left uninterpreted.

## Model

| member | source | states |
|---|---|---|
| Joints.New2 | src/joint.rs:16-21 | A new joint sits at the given position with the given radius, unvalidated, heading 0 and no child bodies |
| Joints.New | src/joint.rs:12-14 | A joint built from coordinates has exactly those coordinates and radius, heading 0 and no children |
| Joints.NewIsNew2 | src/joint.rs:12-14 | Building from x and y is the same as building from the point `(x, y)` |
| Colors.ScalarMul | src/extensions.rs:16-20 | A scalar times a colour scales red, green and blue and keeps alpha |
| Colors.Add | src/extensions.rs:23-29 | Adding colours sums red, green and blue. The alpha is at least each input alpha and is one of them |
| Colors.Mul | src/extensions.rs:32-39 | Multiplying colours multiplies all four channels, alpha included |
| Colors.ScalarMulZero | src/extensions.rs:17-19 | Zero times a colour is black with the input's alpha |
| Colors.AddCommutes | src/extensions.rs:23-29 | Colour addition does not depend on argument order, alpha included |
| Colors.MulCommutes | src/extensions.rs:32-39 | Colour multiplication does not depend on argument order |
| Colors.ScalarMulDistributes | src/extensions.rs:16-29 | Scaling distributes over colour addition |
| Colors.BlendBetween | src/constraints/fabrik_constraint.rs:132 | The debug blend `i*x + (1-i)*y` with `0 <= i <= 1` keeps the red, green and blue channels each between the inputs' values of that channel. Its alpha is the larger input alpha |
| DistanceConstraints.New | src/constraints/distance_constraint.rs:14-16 | The constructor stores distance and rate unchanged |
| DistanceConstraints.DistanceSquared | src/constraints/distance_constraint.rs:19-21 | The comparison bound is `distance * distance` and is non-negative |
| DistanceConstraints.Correct | src/constraints/distance_constraint.rs:28-37 | A pair already within the squared bound is skipped |
| DistanceConstraints.Pass | src/constraints/distance_constraint.rs:26-38 | The pass from pair i on changes positions only. It leaves joints up to i alone. Each later joint is the correction of its original position against its predecessor's corrected position |
| DistanceConstraints.Apply | src/constraints/distance_constraint.rs:25-39 | Joint 0 never moves. A chain under 2 joints is unchanged. Only positions are written. Pairs are corrected front to back, each against the already-corrected predecessor |
| DistanceConstraints.CorrectOnRay | src/constraints/distance_constraint.rs:34-37 | A corrected joint lies on the ray from its predecessor through its old position. Its offset is the old one scaled by `1 - rate + rate*distance/old`, where `old` is the old separation |
| DistanceConstraints.CorrectSeparation | src/constraints/distance_constraint.rs:34-37 | For `0 <= rate <= 1`, the new separation is `(1-rate)*old + rate*distance`, between distance and the old separation |
| DistanceConstraints.CorrectRateOneLandsOnBound | src/constraints/distance_constraint.rs:34-37 | At rate 1 a corrected joint lands exactly distance from its predecessor |
| DistanceConstraints.CorrectRateOneWithin | src/constraints/distance_constraint.rs:29-37 | At rate 1 every pair ends within the bound, corrected or not |
| DistanceConstraints.ApplySatisfiedIsIdentity | src/constraints/distance_constraint.rs:29-32 | If every consecutive pair is within the bound, the pass is the identity |
| DistanceConstraints.SatisfiedPrefixUnchanged | src/constraints/distance_constraint.rs:26-32 | On a chain whose pairs all satisfy the bound, every prefix of the result equals the input prefix |
| DistanceConstraints.ApplyRateZeroIsIdentity | src/constraints/distance_constraint.rs:37 | At rate 0 the pass changes nothing |
| DistanceConstraints.ApplyRateOneSatisfies | src/constraints/distance_constraint.rs:26-37 | After a rate-1 pass every consecutive pair is within distance |
| DistanceConstraints.ApplyRateOneIdempotent | src/constraints/distance_constraint.rs:25-39 | Running a rate-1 pass twice gives the same chain as running it once |
| DistanceConstraints.ApplyNeverOvershoots | src/constraints/distance_constraint.rs:27-37 | Within a pass, each joint's new separation lies between distance and the separation it had when its pair was reached. A skipped pair keeps its separation |
| DistanceConstraints.TwoJointChain | src/constraints/distance_constraint.rs:25-39 | A two-joint chain ends `(1-rate)*old + rate*distance` apart with its first joint fixed. For example, 20 apart with distance 10 gives 10 at rate 1 and 15 at rate 0.5 |
| AngleConstraints.New | src/constraints/angle_constraint.rs:14-16 | The constructor stores the minimum angle and rate unchanged |
| AngleConstraints.TurnDirection | src/constraints/angle_constraint.rs:31-35 | The direction is -1 exactly when the perpendicular dot product is negative, and +1 exactly when it is not (zero counts as +1) |
| AngleConstraints.Correct | src/constraints/angle_constraint.rs:26-29 | A window whose absolute bend is at least the minimum is skipped |
| AngleConstraints.Pass | src/constraints/angle_constraint.rs:21-41 | The pass from window i on changes positions only. It leaves joints up to i+1 alone. Each later joint is the correction of its original position against the two corrected joints before it |
| AngleConstraints.Apply | src/constraints/angle_constraint.rs:20-42 | Joints 0 and 1 never move. A chain under 3 joints is unchanged. Only positions are written. Windows are corrected left to right |
| AngleConstraints.TargetKeepsDistance | src/constraints/angle_constraint.rs:37-38 | The candidate point `AngleConstraints.Target`, `b + length(bc) * fromAngle(toAngle(ba) + angle * direction)`, is exactly as far from the middle joint b as the moving joint was |
| AngleConstraints.CorrectRateOneKeepsDistance | src/constraints/angle_constraint.rs:37-40 | At rate 1 a corrected joint keeps its distance to the middle joint |
| AngleConstraints.ApplySatisfiedIsIdentity | src/constraints/angle_constraint.rs:26-29 | If every window already bends by at least the minimum, the pass is the identity |
| AngleConstraints.SatisfiedPrefixUnchanged | src/constraints/angle_constraint.rs:21-29 | On a chain whose windows are all satisfied, every prefix of the result equals the input prefix |
| AngleConstraints.ApplyRateZeroIsIdentity | src/constraints/angle_constraint.rs:40 | At rate 0 the pass changes nothing |
| AngleConstraints.ApplyRateOneKeepsSpacing | src/constraints/angle_constraint.rs:21-40 | After a rate-1 pass each moved joint is as far from its corrected predecessor as it was before it moved |
| FabrikConstraints.New | src/constraints/fabrik_constraint.rs:55-83 | The forward pass runs at the joint distance with rate 1. The backward pass uses the joint distance and the descriptor's rate. Both targets start at the origin; the other fields are copied |
| FabrikConstraints.NewDefault | src/constraints/fabrik_constraint.rs:42-83 | The default descriptor builds joints 10 apart, a forward pass (10, rate 1), a backward pass (10, rate 0.25), a target angle of 0, target and maximum distances of 20, and both targets at the origin |
| FabrikConstraints.Backward | src/constraints/fabrik_constraint.rs:117 | Whatever the backward pass computes, it changes positions only |
| FabrikConstraints.PinLast | src/constraints/fabrik_constraint.rs:112-115 | Only the last joint's position changes, and it becomes the target |
| FabrikConstraints.PinFirst | src/constraints/fabrik_constraint.rs:119-121 | Only the first joint's position changes, and it becomes the attachment position |
| FabrikConstraints.Apply | src/constraints/fabrik_constraint.rs:87-124 | See the notes after this table |
| FabrikConstraints.ApplySpacesJoints | src/constraints/fabrik_constraint.rs:123 | With a rate-1 forward pass, every consecutive pair ends within the joint distance |
| FabrikConstraints.Run | src/constraints/fabrik_constraint.rs:87-124 | Applying the constraint frame after frame changes joint positions only |
| FabrikConstraints.RunKeepsForward | src/constraints/fabrik_constraint.rs:100-123 | Frame after frame, the constraint's forward pass never changes |
| FabrikConstraints.NewSpacesJointsEveryFrame | src/constraints/fabrik_constraint.rs:55-123 | After any non-empty sequence of frames, a constraint built by `new` leaves every pair within the joint distance. The first joint is on the last frame's attachment position |
| Bodies.New | src/body.rs:23-31 | A new body stores colour and joints, with no constraints, attachment angle 0 and offset 0 |
| Bodies.WithAttachmentAngle | src/body.rs:33-36 | Only the attachment angle changes |
| Bodies.WithAttachmentOffset | src/body.rs:38-41 | Only the attachment offset changes |
| Bodies.AddConstraint | src/body.rs:48-50 | The constraint is appended last. The existing constraints keep their order. Nothing else changes |
| Bodies.WithConstraint | src/body.rs:43-46 | The builder form is the same as adding the constraint |
| Bodies.ApplyConstraint | src/body.rs:54 | One constraint changes positions only and keeps its kind and parameters. The first joint stays put, unless a limb constraint with an attachment point pins it there |
| Bodies.RunConstraints | src/body.rs:53-55 | Running the list changes positions only and keeps every constraint's kind. Without an attachment point the first joint stays put |
| Bodies.RunConstraintsIsFold | src/body.rs:53-55 | Running the list is the left-to-right fold of one-constraint application |
| Bodies.FoldAppend | src/body.rs:53-55 | Folding over a concatenation folds over the first list, then over the second from its result |
| Bodies.RunConstraintsAppend | src/body.rs:53-55 | Running two lists back to back is running their concatenation |
| Bodies.AddedConstraintRunsLast | src/body.rs:48-55 | An added constraint runs after all earlier ones, on the chain they produced |
| Bodies.LimbsWithoutAttachmentAreInert | src/body.rs:84 | Without an attachment point, a list of limb constraints changes neither the chain nor the constraints |
| Bodies.UpdateAngles | src/body.rs:58-61 | Only headings change. Joints before i keep theirs. Every later joint takes the heading of the segment arriving at it |
| Bodies.Pin | src/body.rs:78-83 | Only the child's first joint position changes, and it lands on its attachment position on the parent joint |
| Bodies.PinSeesPlacementOnly | src/body.rs:78-83 | Where a child is pinned depends only on the parent joint's position, heading and radius |
| Bodies.Solve | src/body.rs:52-87 | See the notes after this table |
| Bodies.SolveChildren | src/body.rs:76-86 | The parent joint is unchanged apart from its children. Each child is the step, without an attachment point, of the original child pinned to the parent joint, so the pin happens before the child's own constraints run. Every child body ends with its first joint on its attachment position |
| Bodies.ApplyConstraints | src/body.rs:52-87 | The step of a whole tree. It makes the same promises as `Bodies.Solve`, and also `Bodies.AllPinned`: pinning holds at every depth below chains of at least two joints |
| Bodies.StepKeepsPin | src/body.rs:78-84 | A child stepped without an attachment point from its pinned original keeps its first joint on the attachment position |
| Bodies.SteppedAllPinned | src/body.rs:64-86 | After a step, every body below a chain of at least two joints, at every depth, has its first joint on its attachment position |
| Bodies.SingleJointLeavesChildren | src/body.rs:64-70 | A one-joint body returns before the child loop, so its child bodies come out exactly as they went in |
| Bodies.SteppedIsUnique | src/body.rs:52-87 | `Bodies.Stepped` determines the stepped tree completely: two bodies that are both the step of the same body are equal, at every depth |

Notes on `FabrikConstraints.Apply`:

- Without an attachment point, or on an empty chain, the result is exactly
  the input: chain and both targets.
- Otherwise, the preferred target is `FabrikConstraints.PreferredTarget`,
  which is `position + targetDistance * fromAngle(angle + targetAngle)`.
- The tracked target takes the preferred target's value exactly when
  `FabrikConstraints.Retargets` holds, which means either of these held
  before any joint moved:
  - the tracked target was more than `maxDistance` from the preferred one;
  - the chain's ends were more than `targetDistance` apart.

  Otherwise the tracked target keeps its value.
- The chain is the forward pass over the backward-relaxed chain. The backward
  pass starts from the chain with its last joint pinned to the tracked target;
  the first joint is pinned to the attachment position before the forward
  pass.
- Joint 0 ends on the attachment position.
- Only positions and the two targets change.

Notes on `Bodies.Solve` (and `Bodies.ApplyConstraints`): the result is
`Bodies.Stepped` from the input, which says the following.

- Colour and both attachment fields are kept.
- The constraints are the constraints after they ran in list order. This
  carries each limb constraint's targets into the next frame.
- With fewer than 2 joints, the chain is exactly the chain the constraints
  produced, children untouched.
- With at least 2 joints:
  - positions are the constrained positions, and children never change them;
  - radii and child counts are kept;
  - every joint after the first takes the heading of the segment arriving at
    it, `Bodies.Heading` of the two positions;
  - the first joint copies the second joint's heading;
  - every child body is the step, without an attachment point, of the
    original child pinned (`Bodies.Pin`) to `Bodies.AttachPosition` on the
    already-updated parent joint. This holds at every depth.
- Without an attachment point, the first joint stays put.
- With at least 2 joints, every direct child's first joint ends on its
  attachment position.
- `Bodies.AllPinned` holds of the result (`Bodies.SteppedAllPinned`): below
  every chain of at least two joints, every body at every depth has its first
  joint on its attachment position. A body of a single joint never pins its
  children (`Bodies.SingleJointLeavesChildren`), because `src/body.rs:64-70`
  returns before the child loop.

## Left out

- Rendering: `Body::points`, `Body::mesh`, `Body::draw` (`src/body.rs:89-180`) and `FabrikConstraint::debug_draw` (`src/constraints/fabrik_constraint.rs:126-156`). These are draw calls only. The debug colour blend they use is covered by `Colors.BlendBetween`.
- `UiExtension` and the UI constants (`src/extensions.rs:42-67`), `src/constants.rs`, and `src/main.rs`. These are the event loop, camera, mouse input, UI widgets and random configuration. They are I/O and set-up, not solver logic.
- The trait and module wiring in `src/constraints/constraint.rs` and `src/constraints/mod.rs`. The `Constraint` union and a match replace them.
- `f32` semantics are not modelled: rounding, overflow to infinity, the accuracy of square root and trigonometry, NaN from normalizing a zero vector (`src/body.rs:60`), and the sign of a negative zero in `is_sign_negative` (`src/constraints/angle_constraint.rs:31`). The model uses exact reals, with the maths-library functions left uninterpreted apart from the three laws above.
- The internals of the backward distance mode, named at `src/constraints/fabrik_constraint.rs:79` and implemented in no source file. It is a parameter, so no property depends on what it computes.
- AngleConstraints.Apply: does not prove that a corrected window then bends by exactly the minimum angle. That would need laws relating `angle_between`, `to_angle` and `from_angle`, which the model leaves uninterpreted.
- Bodies.ApplyConstraints: attachment pinning is promised only below chains of at least two joints (`Bodies.AllPinned`), not for every non-root body. A one-joint body returns at `src/body.rs:64-70` before its child loop. In the program's configuration (`src/main.rs:410-443`), each eye is a one-joint body carrying two sub-bodies, which are therefore never pinned. The model follows the code here and does not model a corrected step.
- Bodies.Solve: children are stepped without an attachment point, as `src/body.rs:84` does. The model does not invent an attachment point derived from the parent for them.
- FabrikConstraints.Apply: the missing-attachment case is a silent no-op, as in the code. It is not an error.
- The descriptor types that build the live tree in `src/main.rs` (`BodyDescriptor`, `JointDescriptor`, `ConstraintDescriptor`) are not part of this model. They are not defined in any source file. `FabrikConstraintDescriptor` and its default values are modelled (`FabrikConstraints.NewDefault`).

=== FILE: angle_constraint.dfy ===
/**
  The angle constraint: walking the chain front to back over every window of
  three consecutive joints (a, b, c), a window whose bend at `b` is sharper
  than the minimum `angle` has its last joint `c` pulled, by the fraction
  `rate`, toward the point at the same distance from `b` whose bend is
  exactly the minimum, on the side `c` was already turning to.
 */
module AngleConstraints {
  import opened Vectors
  import opened Skeleton

  /** `AngleConstraint::new`. */
  function New(angle: real, rate: real): (c: AngleConstraint)
    ensures c.angle == angle && c.rate == rate
  {
    AngleConstraint(angle, rate)
  }

  function Abs(x: real): (r: real)
    ensures 0.0 <= r && (r == x || r == -x)
  {
    if x < 0.0 then -x else x
  }

  /** The window (a, b, p) already bends by at least the minimum angle and is skipped. */
  predicate Satisfied(c: AngleConstraint, num: Numerics, a: Vec2, b: Vec2, p: Vec2) {
    Abs(num.angleBetween(a.Sub(b), p.Sub(b))) >= c.angle
  }

  /** The turn direction of `bc` relative to `ba`: clockwise (-1) exactly when the perpendicular dot product is negative. */
  function TurnDirection(ba: Vec2, bc: Vec2): (d: real)
    ensures d == -1.0 <==> ba.PerpDot(bc) < 0.0
    ensures d == 1.0 <==> 0.0 <= ba.PerpDot(bc)
  {
    if ba.PerpDot(bc) < 0.0 then -1.0 else 1.0
  }

  /** The candidate position for `p`: as far from `b` as `p` is, at the minimum angle from `ba` on `p`'s side. */
  function Target(c: AngleConstraint, num: Numerics, a: Vec2, b: Vec2, p: Vec2): Vec2 {
    var ba := a.Sub(b);
    var bc := p.Sub(b);
    var heading := num.toAngle(ba) + c.angle * TurnDirection(ba, bc);
    b.Add(num.fromAngle(heading).Scale(num.Length(bc)))
  }

  /** The new position of the last joint `p` of the window (a, b, p). */
  function Correct(c: AngleConstraint, num: Numerics, a: Vec2, b: Vec2, p: Vec2): (q: Vec2)
    ensures Satisfied(c, num, a, b, p) ==> q == p
  {
    if Satisfied(c, num, a, b, p) then p else p.Lerp(Target(c, num, a, b, p), c.rate)
  }

  /**
    The pass over the windows starting at i, i+1, ... in that order. Each
    window sees its first two joints as already corrected by earlier windows.
   */
  function Pass(c: AngleConstraint, num: Numerics, js: seq<Joint>, i: nat): (r: seq<Joint>)
    decreases |js| - i
    ensures OnlyPositionsChanged(js, r)
    ensures forall j :: 0 <= j <= i + 1 && j < |js| ==> r[j] == js[j]
    ensures forall j :: i <= j < |js| - 2 ==> r[j + 2].pos == Correct(c, num, r[j].pos, r[j + 1].pos, js[j + 2].pos)
  {
    if |js| <= i + 2 then
      js
    else
      var moved := js[i + 2].(pos := Correct(c, num, js[i].pos, js[i + 1].pos, js[i + 2].pos));
      Pass(c, num, js[i + 2 := moved], i + 1)
  }

  /**
    `apply`: the first two joints never move, no field but `pos` is written,
    and each later joint is the correction of its original position against
    the corrected positions of the two joints before it.
   */
  function Apply(c: AngleConstraint, num: Numerics, js: seq<Joint>): (r: seq<Joint>)
    ensures OnlyPositionsChanged(js, r)
    ensures |js| < 3 ==> r == js
    ensures forall j :: 0 <= j < 2 && j < |js| ==> r[j] == js[j]
    ensures forall j :: 0 <= j < |js| - 2 ==> r[j + 2].pos == Correct(c, num, r[j].pos, r[j + 1].pos, js[j + 2].pos)
  {
    Pass(c, num, js, 0)
  }

  /** The candidate point is exactly as far from `b` as `p` is. */
  lemma TargetKeepsDistance(c: AngleConstraint, num: Numerics, a: Vec2, b: Vec2, p: Vec2)
    requires num.Lawful()
    ensures Target(c, num, a, b, p).Sub(b).LengthSquared() == p.Sub(b).LengthSquared()
  {
    var ba, bc := a.Sub(b), p.Sub(b);
    var u := num.fromAngle(num.toAngle(ba) + c.angle * TurnDirection(ba, bc));
    var len := num.Length(bc);
    var L := bc.LengthSquared();
    assert Target(c, num, a, b, p).Sub(b) == u.Scale(len);
    ScaleLengthSquared(u, len);
    assert u.LengthSquared() == 1.0;
    assert len * len == L;
  }

  /** With rate 1 a corrected joint keeps its distance to the middle joint of its window. */
  lemma CorrectRateOneKeepsDistance(c: AngleConstraint, num: Numerics, a: Vec2, b: Vec2, p: Vec2)
    requires num.Lawful()
    requires c.rate == 1.0
    ensures Correct(c, num, a, b, p).Sub(b).LengthSquared() == p.Sub(b).LengthSquared()
  {
    if !Satisfied(c, num, a, b, p) {
      LerpEnds(p, Target(c, num, a, b, p));
      TargetKeepsDistance(c, num, a, b, p);
    }
  }

  /** If every window already bends by at least the minimum, the pass changes nothing. */
  lemma {:induction false} ApplySatisfiedIsIdentity(c: AngleConstraint, num: Numerics, js: seq<Joint>)
    requires forall j :: 0 <= j < |js| - 2 ==> Satisfied(c, num, js[j].pos, js[j + 1].pos, js[j + 2].pos)
    ensures Apply(c, num, js) == js
  {
    var r := Apply(c, num, js);
    SatisfiedPrefixUnchanged(c, num, js, |js|);
    assert forall j :: 0 <= j < |js| ==> r[j] == js[j];
  }

  lemma {:induction false} SatisfiedPrefixUnchanged(c: AngleConstraint, num: Numerics, js: seq<Joint>, n: nat)
    requires n <= |js|
    requires forall j :: 0 <= j < |js| - 2 ==> Satisfied(c, num, js[j].pos, js[j + 1].pos, js[j + 2].pos)
    ensures forall j :: 0 <= j < n ==> Apply(c, num, js)[j] == js[j]
  {
    if 2 < n {
      SatisfiedPrefixUnchanged(c, num, js, n - 1);
      var r := Apply(c, num, js);
      assert r[n - 1].pos == Correct(c, num, r[n - 3].pos, r[n - 2].pos, js[n - 1].pos);
      assert r[n - 1] == js[n - 1].(pos := r[n - 1].pos);
    }
  }

  /** With rate 0 the pass changes nothing. */
  lemma ApplyRateZeroIsIdentity(c: AngleConstraint, num: Numerics, js: seq<Joint>)
    requires c.rate == 0.0
    ensures Apply(c, num, js) == js
  {
    var r := Apply(c, num, js);
    forall k | 2 <= k < |js|
      ensures r[k].pos == js[k].pos
    {
      var a, b, p := r[k - 2].pos, r[k - 1].pos, js[k].pos;
      LerpEnds(p, Target(c, num, a, b, p));
    }
    assert forall j :: 0 <= j < |js| ==> r[j] == js[j].(pos := r[j].pos);
    assert forall j :: 0 <= j < |js| ==> r[j] == js[j];
  }

  /** After a rate-1 pass every moved joint is as far from its (corrected) predecessor as it was before it moved. */
  lemma ApplyRateOneKeepsSpacing(c: AngleConstraint, num: Numerics, js: seq<Joint>)
    requires num.Lawful()
    requires c.rate == 1.0
    ensures var r := Apply(c, num, js);
            forall k :: 2 <= k < |js| ==>
              r[k].pos.Sub(r[k - 1].pos).LengthSquared() == js[k].pos.Sub(r[k - 1].pos).LengthSquared()
  {
    var r := Apply(c, num, js);
    forall k | 2 <= k < |js|
      ensures r[k].pos.Sub(r[k - 1].pos).LengthSquared() == js[k].pos.Sub(r[k - 1].pos).LengthSquared()
    {
      CorrectRateOneKeepsDistance(c, num, r[k - 2].pos, r[k - 1].pos, js[k].pos);
    }
  }
}

=== FILE: body.dfy ===
/**
  Bodies and the per-frame solver step. A step runs the body's constraints
  in list order, derives every joint's heading from the constrained
  positions, copies the second heading onto the first joint, and then, for
  every joint and every child body hanging off it, pins the child's first
  joint to its attachment position on the parent joint and steps the child.
  Children are stepped without an attachment point.
 */
module Bodies {
  import opened Vectors
  import opened Colors
  import opened Skeleton
  import DistanceConstraints
  import AngleConstraints
  import FabrikConstraints

  /** `Body::new`: no constraints, attached at angle 0 and offset 0. */
  function New(color: Color, joints: seq<Joint>): (b: Body)
    ensures b.color == color && b.joints == joints
    ensures b.constraints == []
    ensures b.attachmentAngle == 0.0 && b.attachmentOffset == 0.0
  {
    Body(color, joints, [], 0.0, 0.0)
  }

  /** `with_attachment_angle`: sets the attachment angle and nothing else. */
  function WithAttachmentAngle(b: Body, angle: real): (r: Body)
    ensures r.attachmentAngle == angle
    ensures r.color == b.color && r.joints == b.joints && r.constraints == b.constraints
    ensures r.attachmentOffset == b.attachmentOffset
  {
    b.(attachmentAngle := angle)
  }

  /** `with_attachment_offset`: sets the attachment offset and nothing else. */
  function WithAttachmentOffset(b: Body, offset: real): (r: Body)
    ensures r.attachmentOffset == offset
    ensures r.color == b.color && r.joints == b.joints && r.constraints == b.constraints
    ensures r.attachmentAngle == b.attachmentAngle
  {
    b.(attachmentOffset := offset)
  }

  /** `add_constraint`: the new constraint goes last; the others keep their order. */
  function AddConstraint(b: Body, c: Constraint): (r: Body)
    ensures |r.constraints| == |b.constraints| + 1
    ensures r.constraints[..|b.constraints|] == b.constraints
    ensures r.constraints[|b.constraints|] == c
    ensures r == b.(constraints := r.constraints)
  {
    b.(constraints := b.constraints + [c])
  }

  /** `with_constraint`, which is `add_constraint` on a body taken by value. */
  function WithConstraint(b: Body, c: Constraint): (r: Body)
    ensures r == AddConstraint(b, c)
  {
    AddConstraint(b, c)
  }

  /** `d` is `c` after an application: same kind and parameters; a limb constraint may have new targets. */
  predicate SameKind(c: Constraint, d: Constraint) {
    match c
    case Distance(_) => d == c
    case Angle(_) => d == c
    case Fabrik(f) =>
      d.Fabrik? && d.fabrik == f.(currentTarget := d.fabrik.currentTarget, preferredTarget := d.fabrik.preferredTarget)
  }

  /** A constraint after it ran, and the chain it produced. */
  datatype Applied = Applied(constraint: Constraint, joints: seq<Joint>)

  /**
    Applies one constraint. Distance and angle constraints ignore the
    attachment point. The first joint stays where it was, except that a limb
    constraint given an attachment point puts it on that point.
   */
  function ApplyConstraint(c: Constraint, js: seq<Joint>, ap: Option<AttachmentPoint>,
                           num: Numerics, back: FabrikConstraints.BackwardPass): (r: Applied)
    requires num.Lawful()
    ensures OnlyPositionsChanged(js, r.joints)
    ensures SameKind(c, r.constraint)
    ensures 0 < |js| ==>
      r.joints[0].pos == (if c.Fabrik? && ap.Some? then ap.value.position else js[0].pos)
  {
    match c
    case Distance(d) => Applied(c, DistanceConstraints.Apply(d, num, js))
    case Angle(a) => Applied(c, AngleConstraints.Apply(a, num, js))
    case Fabrik(f) =>
      var o := FabrikConstraints.Apply(f, js, ap, num, back);
      Applied(Fabrik(o.constraint), o.joints)
  }

  /** The constraints after they ran, in order, and the chain the last one produced. */
  datatype Ran = Ran(constraints: seq<Constraint>, joints: seq<Joint>)

  /** Runs the constraints in list order, each on the chain the one before it produced. */
  function RunConstraints(cs: seq<Constraint>, js: seq<Joint>, ap: Option<AttachmentPoint>,
                          num: Numerics, back: FabrikConstraints.BackwardPass): (r: Ran)
    requires num.Lawful()
    decreases |cs|
    ensures |r.constraints| == |cs|
    ensures forall i :: 0 <= i < |cs| ==> SameKind(cs[i], r.constraints[i])
    ensures OnlyPositionsChanged(js, r.joints)
    ensures ap.None? && 0 < |js| ==> r.joints[0].pos == js[0].pos
  {
    if cs == [] then
      Ran([], js)
    else
      var first := ApplyConstraint(cs[0], js, ap, num, back);
      var rest := RunConstraints(cs[1..], first.joints, ap, num, back);
      Ran([first.constraint] + rest.constraints, rest.joints)
  }

  /** One constraint application, as a function of the constraint and the chain. */
  function Stepper(ap: Option<AttachmentPoint>, num: Numerics, back: FabrikConstraints.BackwardPass)
    : (step: (Constraint, seq<Joint>) --> Applied)
    requires num.Lawful()
    ensures forall c, js :: step.requires(c, js)
  {
    (c: Constraint, js: seq<Joint>) requires num.Lawful() => ApplyConstraint(c, js, ap, num, back)
  }

  /** A left-to-right run of `step` over the constraints, threading the chain. */
  function Fold(cs: seq<Constraint>, js: seq<Joint>, step: (Constraint, seq<Joint>) --> Applied): (r: Ran)
    requires forall c, j :: step.requires(c, j)
    decreases |cs|
    ensures |r.constraints| == |cs|
  {
    if cs == [] then
      Ran([], js)
    else
      var first := step(cs[0], js);
      var rest := Fold(cs[1..], first.joints, step);
      Ran([first.constraint] + rest.constraints, rest.joints)
  }

  /** Folding over a concatenation folds over the first list, then over the second from its result. */
  lemma {:induction false} FoldAppend(cs1: seq<Constraint>, cs2: seq<Constraint>, js: seq<Joint>,
                                      step: (Constraint, seq<Joint>) --> Applied)
    requires forall c, j :: step.requires(c, j)
    ensures var r1 := Fold(cs1, js, step);
            var r2 := Fold(cs2, r1.joints, step);
            Fold(cs1 + cs2, js, step) == Ran(r1.constraints + r2.constraints, r2.joints)
  {
    if cs1 == [] {
      assert cs1 + cs2 == cs2;
    } else {
      var first := step(cs1[0], js);
      assert (cs1 + cs2)[0] == cs1[0];
      assert (cs1 + cs2)[1..] == cs1[1..] + cs2;
      FoldAppend(cs1[1..], cs2, first.joints, step);
      var r1 := Fold(cs1[1..], first.joints, step);
      var r2 := Fold(cs2, r1.joints, step);
      assert [first.constraint] + (r1.constraints + r2.constraints) == ([first.constraint] + r1.constraints) + r2.constraints;
    }
  }

  /** Running the constraints is the fold of their one-constraint application. */
  lemma {:induction false} RunConstraintsIsFold(cs: seq<Constraint>, js: seq<Joint>, ap: Option<AttachmentPoint>,
                                                num: Numerics, back: FabrikConstraints.BackwardPass)
    requires num.Lawful()
    ensures RunConstraints(cs, js, ap, num, back) == Fold(cs, js, Stepper(ap, num, back))
  {
    if cs != [] {
      var first := ApplyConstraint(cs[0], js, ap, num, back);
      RunConstraintsIsFold(cs[1..], first.joints, ap, num, back);
    }
  }

  /** Running a concatenation of lists runs the first list, then the second on its result. */
  lemma RunConstraintsAppend(cs1: seq<Constraint>, cs2: seq<Constraint>, js: seq<Joint>,
                             ap: Option<AttachmentPoint>, num: Numerics, back: FabrikConstraints.BackwardPass)
    requires num.Lawful()
    ensures var r1 := RunConstraints(cs1, js, ap, num, back);
            var r2 := RunConstraints(cs2, r1.joints, ap, num, back);
            RunConstraints(cs1 + cs2, js, ap, num, back) == Ran(r1.constraints + r2.constraints, r2.joints)
  {
    var step := Stepper(ap, num, back);
    var r1 := RunConstraints(cs1, js, ap, num, back);
    RunConstraintsIsFold(cs1, js, ap, num, back);
    RunConstraintsIsFold(cs2, r1.joints, ap, num, back);
    RunConstraintsIsFold(cs1 + cs2, js, ap, num, back);
    FoldAppend(cs1, cs2, js, step);
  }

  /**
    Without an attachment point a list of limb constraints is inert: neither
    the chain nor any stored target changes. Child bodies are stepped without
    one, so this is what their limb constraints do.
   */
  lemma {:induction false} LimbsWithoutAttachmentAreInert(cs: seq<Constraint>, js: seq<Joint>, num: Numerics,
                                                         back: FabrikConstraints.BackwardPass)
    requires num.Lawful()
    requires forall i :: 0 <= i < |cs| ==> cs[i].Fabrik?
    ensures RunConstraints(cs, js, None, num, back) == Ran(cs, js)
  {
    if cs != [] {
      LimbsWithoutAttachmentAreInert(cs[1..], js, num, back);
      assert [cs[0]] + cs[1..] == cs;
    }
  }

  /** A constraint added to a body runs last, on the chain all earlier constraints produced. */
  lemma AddedConstraintRunsLast(b: Body, c: Constraint, ap: Option<AttachmentPoint>,
                                num: Numerics, back: FabrikConstraints.BackwardPass)
    requires num.Lawful()
    ensures var before := RunConstraints(b.constraints, b.joints, ap, num, back);
            var last := ApplyConstraint(c, before.joints, ap, num, back);
            RunConstraints(AddConstraint(b, c).constraints, b.joints, ap, num, back)
              == Ran(before.constraints + [last.constraint], last.joints)
  {
    var before := RunConstraints(b.constraints, b.joints, ap, num, back);
    RunConstraintsAppend(b.constraints, [c], b.joints, ap, num, back);
    var last := ApplyConstraint(c, before.joints, ap, num, back);
    assert RunConstraints([c], before.joints, ap, num, back) == Ran([last.constraint], last.joints);
  }

  /** The heading of the segment from `from` to `to`. */
  function Heading(num: Numerics, from: Vec2, to: Vec2): real {
    num.toAngle(num.normalize(to.Sub(from)))
  }

  /**
    The heading pass over the pairs (i-1, i), (i, i+1), ...: each joint from
    `i` on takes the heading of the segment arriving at it. Only headings are
    written, so each is computed from the positions alone.
   */
  function UpdateAngles(num: Numerics, js: seq<Joint>, i: nat): (r: seq<Joint>)
    requires 1 <= i
    decreases |js| - i
    ensures OnlyAnglesChanged(js, r)
    ensures forall j :: 0 <= j < i && j < |js| ==> r[j] == js[j]
    ensures forall j :: i <= j < |js| ==> r[j].angle == Heading(num, js[j - 1].pos, js[j].pos)
  {
    if |js| <= i then
      js
    else
      UpdateAngles(num, js[i := js[i].(angle := Heading(num, js[i - 1].pos, js[i].pos))], i + 1)
  }

  /** Where a child's first joint goes on its parent joint: `offset * radius` along the heading `parent.angle + attachmentAngle`. */
  function AttachPosition(num: Numerics, parent: Joint, child: Body): Vec2 {
    parent.pos.Add(num.fromAngle(parent.angle + child.attachmentAngle).Scale(child.attachmentOffset * parent.radius))
  }

  /** The child's first joint, if it has one, is on its attachment position on `parent`. */
  predicate AttachedAt(num: Numerics, parent: Joint, child: Body) {
    0 < |child.joints| ==> child.joints[0].pos == AttachPosition(num, parent, child)
  }

  /** The child with its first joint, if any, moved to its attachment position. */
  function Pin(num: Numerics, parent: Joint, child: Body): (r: Body)
    ensures r == child.(joints := r.joints)
    ensures OnlyPositionsChanged(child.joints, r.joints)
    ensures forall i :: 0 < i < |r.joints| ==> r.joints[i] == child.joints[i]
    ensures AttachedAt(num, parent, r)
  {
    if |child.joints| == 0 then
      child
    else
      child.(joints := child.joints[0 := child.joints[0].(pos := AttachPosition(num, parent, child))])
  }

  /**
    `after` is the step of `before` under the attachment point `ap`, at every
    depth: `before`'s constraints ran in order; a chain of fewer than two
    joints is otherwise left as they produced it; a longer chain keeps those
    positions, radii and child counts, every joint after the first takes the
    heading of the segment arriving at it, the first copies the second's
    heading, and every child body is the step, without an attachment point,
    of the original child pinned to the already-updated parent joint.
   */
  ghost predicate Stepped(before: Body, after: Body, ap: Option<AttachmentPoint>,
                          num: Numerics, back: FabrikConstraints.BackwardPass)
    requires num.Lawful()
    decreases after
  {
    var ran := RunConstraints(before.constraints, before.joints, ap, num, back);
    && after.color == before.color
    && after.attachmentAngle == before.attachmentAngle
    && after.attachmentOffset == before.attachmentOffset
    && after.constraints == ran.constraints
    && |after.joints| == |before.joints|
    && (|before.joints| < 2 ==> after.joints == ran.joints)
    && (2 <= |before.joints| ==>
          && (forall i :: 0 <= i < |after.joints| ==>
                && after.joints[i].pos == ran.joints[i].pos
                && after.joints[i].radius == before.joints[i].radius
                && |after.joints[i].children| == |before.joints[i].children|)
          && (forall i :: 1 <= i < |after.joints| ==>
                after.joints[i].angle == Heading(num, after.joints[i - 1].pos, after.joints[i].pos))
          && after.joints[0].angle == after.joints[1].angle
          && (forall i, m :: 0 <= i < |after.joints| && 0 <= m < |after.joints[i].children| ==>
                Stepped(Pin(num, after.joints[i], before.joints[i].children[m]),
                        after.joints[i].children[m], None, num, back)))
  }

  /** Pinning reads only the parent joint's position, heading and radius. */
  lemma PinSeesPlacementOnly(num: Numerics, p: Joint, q: Joint, child: Body)
    requires p.pos == q.pos && p.angle == q.angle && p.radius == q.radius
    ensures Pin(num, p, child) == Pin(num, q, child)
  {
    assert AttachPosition(num, p, child) == AttachPosition(num, q, child);
  }

  /** `b` has as many joints as `shape`, and each joint has the same child bodies. */
  ghost predicate SameShape(b: Body, shape: Body) {
    |b.joints| == |shape.joints| && forall i :: 0 <= i < |b.joints| ==> b.joints[i].children == shape.joints[i].children
  }

  /**
    The solver step on `b`. The ghost `shape` is the body whose tree of
    children `b` carries; it only measures the recursion, since `b` itself has
    been pinned by its parent and is not a sub-term of anything.
   */
  function Solve(b: Body, ghost shape: Body, ap: Option<AttachmentPoint>,
                 num: Numerics, back: FabrikConstraints.BackwardPass): (r: Body)
    requires num.Lawful()
    requires SameShape(b, shape)
    decreases shape, 1
    ensures Stepped(b, r, ap, num, back)
    ensures ap.None? && 0 < |b.joints| ==> r.joints[0].pos == b.joints[0].pos
    ensures 2 <= |r.joints| ==>
      forall i, m :: 0 <= i < |r.joints| && 0 <= m < |r.joints[i].children| ==>
        AttachedAt(num, r.joints[i], r.joints[i].children[m])
  {
    var ran := RunConstraints(b.constraints, b.joints, ap, num, back);
    var angled := UpdateAngles(num, ran.joints, 1);
    if |angled| < 2 then
      b.(constraints := ran.constraints, joints := angled)
    else
      var js := angled[0 := angled[0].(angle := angled[1].angle)];
      assert forall i :: 0 <= i < |js| ==> js[i].children == shape.joints[i].children;
      b.(constraints := ran.constraints,
         joints := seq(|js|, i requires 0 <= i < |js| => SolveChildren(js[i], shape, i, num, back)))
  }

  /** Pins and steps, in order, every child body of `parent` (joint `i` of the body whose tree is `shape`). */
  function SolveChildren(parent: Joint, ghost shape: Body, i: nat,
                         num: Numerics, back: FabrikConstraints.BackwardPass): (r: Joint)
    requires num.Lawful()
    requires i < |shape.joints| && parent.children == shape.joints[i].children
    decreases shape, 0
    ensures r == parent.(children := r.children)
    ensures |r.children| == |parent.children|
    ensures forall m :: 0 <= m < |r.children| ==>
      Stepped(Pin(num, r, parent.children[m]), r.children[m], None, num, back)
    ensures forall m :: 0 <= m < |r.children| ==> AttachedAt(num, r, r.children[m])
  {
    var kids := parent.children;
    var r := parent.(children := seq(|kids|, m requires 0 <= m < |kids| =>
      Solve(Pin(num, parent, kids[m]), shape.joints[i].children[m], None, num, back)));
    forall m | 0 <= m < |kids| {
      PinSeesPlacementOnly(num, r, parent, kids[m]);
    }
    r
  }

  /**
    `apply_constraints`, the step of a whole tree: `Stepped` at every depth,
    with the first joint left where the constraints put it and every child
    body's first joint on its attachment position on its updated parent joint.
   */
  function ApplyConstraints(b: Body, ap: Option<AttachmentPoint>,
                            num: Numerics, back: FabrikConstraints.BackwardPass): (r: Body)
    requires num.Lawful()
    ensures Stepped(b, r, ap, num, back)
    ensures ap.None? && 0 < |b.joints| ==> r.joints[0].pos == b.joints[0].pos
    ensures 2 <= |r.joints| ==>
      forall i, m :: 0 <= i < |r.joints| && 0 <= m < |r.joints[i].children| ==>
        AttachedAt(num, r.joints[i], r.joints[i].children[m])
    ensures AllPinned(num, r)
  {
    var r := Solve(b, b, ap, num, back);
    SteppedAllPinned(b, r, ap, num, back);
    r
  }

  /**
    Every child body of a chain of at least two joints, and recursively every
    body below it, has its first joint on its attachment position. A body of
    fewer than two joints constrains nothing about its children, because the
    step returns before reaching them.
   */
  ghost predicate AllPinned(num: Numerics, b: Body)
    decreases b
  {
    2 <= |b.joints| ==>
      forall i, m :: 0 <= i < |b.joints| && 0 <= m < |b.joints[i].children| ==>
        AttachedAt(num, b.joints[i], b.joints[i].children[m]) && AllPinned(num, b.joints[i].children[m])
  }

  /** A child stepped without an attachment point from its pinned original stays on its attachment position. */
  lemma StepKeepsPin(num: Numerics, parent: Joint, kid: Body, c: Body, back: FabrikConstraints.BackwardPass)
    requires num.Lawful()
    requires Stepped(Pin(num, parent, kid), c, None, num, back)
    ensures AttachedAt(num, parent, c)
  {
    var p := Pin(num, parent, kid);
    if 0 < |c.joints| {
      var ran := RunConstraints(p.constraints, p.joints, None, num, back);
      assert c.joints[0].pos == ran.joints[0].pos;
      assert AttachPosition(num, parent, c) == AttachPosition(num, parent, kid);
    }
  }

  /** The step pins every body at every depth below a chain of at least two joints. */
  lemma {:induction false} SteppedAllPinned(before: Body, after: Body, ap: Option<AttachmentPoint>,
                                            num: Numerics, back: FabrikConstraints.BackwardPass)
    requires num.Lawful()
    requires Stepped(before, after, ap, num, back)
    ensures AllPinned(num, after)
    decreases after
  {
    if 2 <= |after.joints| {
      forall i, m | 0 <= i < |after.joints| && 0 <= m < |after.joints[i].children|
        ensures AttachedAt(num, after.joints[i], after.joints[i].children[m])
        ensures AllPinned(num, after.joints[i].children[m])
      {
        var kid := before.joints[i].children[m];
        var c := after.joints[i].children[m];
        StepKeepsPin(num, after.joints[i], kid, c, back);
        SteppedAllPinned(Pin(num, after.joints[i], kid), c, None, num, back);
      }
    }
  }

  /**
    A body of one joint never pins its children: whatever the joint carries
    is left exactly where the constraints left it.
   */
  lemma SingleJointLeavesChildren(b: Body, r: Body, ap: Option<AttachmentPoint>,
                                  num: Numerics, back: FabrikConstraints.BackwardPass)
    requires num.Lawful()
    requires |b.joints| == 1
    requires Stepped(b, r, ap, num, back)
    ensures r.joints[0].children == b.joints[0].children
  {
    var ran := RunConstraints(b.constraints, b.joints, ap, num, back);
    assert r.joints == ran.joints;
  }

  /**
    The step is determined: two bodies that are both the step of the same body
    are equal, at every depth.
   */
  lemma {:induction false} SteppedIsUnique(before: Body, r1: Body, r2: Body, ap: Option<AttachmentPoint>,
                                           num: Numerics, back: FabrikConstraints.BackwardPass)
    requires num.Lawful()
    requires Stepped(before, r1, ap, num, back) && Stepped(before, r2, ap, num, back)
    ensures r1 == r2
    decreases r1
  {
    if 2 <= |before.joints| {
      forall i | 0 <= i < |r1.joints|
        ensures r1.joints[i] == r2.joints[i]
      {
        var j1, j2 := r1.joints[i], r2.joints[i];
        assert j1.pos == j2.pos && j1.radius == j2.radius;
        var k := if i == 0 then 1 else i;
        assert r1.joints[k - 1].pos == r2.joints[k - 1].pos && r1.joints[k].pos == r2.joints[k].pos;
        assert r1.joints[k].angle == r2.joints[k].angle;
        forall m | 0 <= m < |j1.children|
          ensures j1.children[m] == j2.children[m]
        {
          var kid := before.joints[i].children[m];
          PinSeesPlacementOnly(num, j1, j2, kid);
          SteppedIsUnique(Pin(num, j1, kid), j1.children[m], j2.children[m], None, num, back);
        }
      }
    }
  }
}

=== FILE: colors.dfy ===
/**
  Colour arithmetic used to blend debug colours: a scalar times a colour,
  and the channel-wise sum and product of two colours. Channels are reals
  standing in for single-precision floats; no clamping is applied anywhere.
 */
module Colors {

  datatype Color = Color(r: real, g: real, b: real, a: real)

  function Max(x: real, y: real): (m: real)
    ensures x <= m && y <= m
    ensures m == x || m == y
  {
    if x < y then y else x
  }

  /** `s.mul(c)`: the colour channels are scaled, the alpha channel is kept. */
  function ScalarMul(s: real, c: Color): (r: Color)
    ensures r.a == c.a
    ensures r.r == s * c.r && r.g == s * c.g && r.b == s * c.b
  {
    Color(s * c.r, s * c.g, s * c.b, c.a)
  }

  /** `c.add(d)`: colour channels are summed; the result is as opaque as the more opaque argument. */
  function Add(c: Color, d: Color): (r: Color)
    ensures r.r == c.r + d.r && r.g == c.g + d.g && r.b == c.b + d.b
    ensures c.a <= r.a && d.a <= r.a
    ensures r.a == c.a || r.a == d.a
  {
    Color(c.r + d.r, c.g + d.g, c.b + d.b, Max(c.a, d.a))
  }

  /** `c.mul(d)`: every channel, alpha included, is multiplied. */
  function Mul(c: Color, d: Color): (r: Color)
    ensures r.r == c.r * d.r && r.g == c.g * d.g && r.b == c.b * d.b
    ensures r.a == c.a * d.a
  {
    Color(c.r * d.r, c.g * d.g, c.b * d.b, c.a * d.a)
  }

  /** Scaling by zero gives black with the alpha of its argument. */
  lemma ScalarMulZero(c: Color)
    ensures ScalarMul(0.0, c) == Color(0.0, 0.0, 0.0, c.a)
  {
  }

  /** Addition does not depend on the order of its arguments, alpha included. */
  lemma AddCommutes(c: Color, d: Color)
    ensures Add(c, d) == Add(d, c)
  {
  }

  /** Multiplication does not depend on the order of its arguments. */
  lemma MulCommutes(c: Color, d: Color)
    ensures Mul(c, d) == Mul(d, c)
  {
  }

  /** Scaling distributes over addition; alpha is untouched on both sides. */
  lemma ScalarMulDistributes(s: real, c: Color, d: Color)
    ensures ScalarMul(s, Add(c, d)) == Add(ScalarMul(s, c), ScalarMul(s, d))
  {
  }

  /**
    The blend `i * x + (1 - i) * y` used for debug colours: each colour channel
    lies between the two inputs' channels when `0 <= i <= 1`, and the alpha is
    the larger input alpha.
   */
  lemma BlendBetween(i: real, x: Color, y: Color)
    requires 0.0 <= i <= 1.0
    ensures var z := Add(ScalarMul(i, x), ScalarMul(1.0 - i, y));
      && (x.r <= y.r ==> x.r <= z.r <= y.r) && (y.r <= x.r ==> y.r <= z.r <= x.r)
      && (x.g <= y.g ==> x.g <= z.g <= y.g) && (y.g <= x.g ==> y.g <= z.g <= x.g)
      && (x.b <= y.b ==> x.b <= z.b <= y.b) && (y.b <= x.b ==> y.b <= z.b <= x.b)
      && z.a == Max(x.a, y.a)
  {
    var z := Add(ScalarMul(i, x), ScalarMul(1.0 - i, y));
    ChannelBetween(i, x.r, y.r, z.r);
    ChannelBetween(i, x.g, y.g, z.g);
    ChannelBetween(i, x.b, y.b, z.b);
  }

  /** One channel of the blend: `w == i * u + (1 - i) * v` lies between `u` and `v`. */
  lemma ChannelBetween(i: real, u: real, v: real, w: real)
    requires 0.0 <= i <= 1.0
    requires w == i * u + (1.0 - i) * v
    ensures u <= v ==> u <= w <= v
    ensures v <= u ==> v <= w <= u
  {
    if u <= v {
      var e, j := v - u, 1.0 - i;
      var je := j * e;
      assert w == u + je;
      FractionBelow(j, e, je);
    } else {
      var e := u - v;
      var ie := i * e;
      assert w == v + ie;
      FractionBelow(i, e, ie);
    }
  }

  /** A fraction `te == t * e`, with `t` in [0, 1], of a non-negative `e` lies between 0 and `e`. */
  lemma FractionBelow(t: real, e: real, te: real)
    requires 0.0 <= t <= 1.0 && 0.0 <= e
    requires te == t * e
    ensures 0.0 <= te <= e
  {
    var rest := 1.0 - t;
    var re := rest * e;
    assert 0.0 <= te && 0.0 <= re;
    assert te + re == e;
  }
}

=== FILE: distance_constraint.dfy ===
/**
  The distance constraint: walking the chain front to back, every joint that
  is more than `distance` away from its (already corrected) predecessor is
  pulled toward it, by the fraction `rate` of the way to the point exactly
  `distance` away on the line through both. Pairs that are close enough are
  left alone: the constraint only ever pulls joints together.
 */
module DistanceConstraints {
  import opened Vectors
  import opened Skeleton

  /** `DistanceConstraint::new`. */
  function New(distance: real, rate: real): (c: DistanceConstraint)
    ensures c.distance == distance && c.rate == rate
  {
    DistanceConstraint(distance, rate)
  }

  /** `distance_squared`: the bound that squared separations are compared against. */
  function DistanceSquared(c: DistanceConstraint): (d2: real)
    ensures 0.0 <= d2
    ensures d2 == c.distance * c.distance
  {
    c.distance * c.distance
  }

  /** The pair (a, b) is close enough to be skipped. */
  predicate Satisfied(c: DistanceConstraint, a: Vec2, b: Vec2) {
    b.Sub(a).LengthSquared() <= DistanceSquared(c)
  }

  /** The new position of the second joint `b` of a pair whose first joint is `a`. */
  function Correct(c: DistanceConstraint, num: Numerics, a: Vec2, b: Vec2): (p: Vec2)
    requires num.Lawful()
    ensures Satisfied(c, a, b) ==> p == b
  {
    var delta := b.Sub(a);
    var d2 := delta.LengthSquared();
    if d2 <= DistanceSquared(c) then
      b
    else
      var s := num.sqrt(d2);
      SqrtAbove(num, d2, c.distance);
      var target := a.Add(delta.Scale(c.distance).Div(s));
      b.Lerp(target, c.rate)
  }

  /**
    The pass over the pairs (i, i+1), (i+1, i+2), ... in that order. Each pair
    sees its first joint as already corrected by the pair before it.
   */
  function Pass(c: DistanceConstraint, num: Numerics, js: seq<Joint>, i: nat): (r: seq<Joint>)
    requires num.Lawful()
    decreases |js| - i
    ensures OnlyPositionsChanged(js, r)
    ensures forall j :: 0 <= j <= i && j < |js| ==> r[j] == js[j]
    ensures forall j :: i <= j < |js| - 1 ==> r[j + 1].pos == Correct(c, num, r[j].pos, js[j + 1].pos)
  {
    if |js| <= i + 1 then
      js
    else
      var moved := js[i + 1].(pos := Correct(c, num, js[i].pos, js[i + 1].pos));
      Pass(c, num, js[i + 1 := moved], i + 1)
  }

  /**
    `apply`: the first joint never moves, no field but `pos` is written, and
    each later joint is the correction of its original position against its
    predecessor's corrected position.
   */
  function Apply(c: DistanceConstraint, num: Numerics, js: seq<Joint>): (r: seq<Joint>)
    requires num.Lawful()
    ensures OnlyPositionsChanged(js, r)
    ensures |js| < 2 ==> r == js
    ensures 0 < |js| ==> r[0] == js[0]
    ensures forall j :: 0 <= j < |js| - 1 ==> r[j + 1].pos == Correct(c, num, r[j].pos, js[j + 1].pos)
  {
    Pass(c, num, js, 0)
  }

  /** The offset of a lerped point from `a`, when the target lies on the line from `a` through `b`. */
  lemma LerpAlongRay(a: Vec2, b: Vec2, k: real, rate: real)
    ensures b.Lerp(a.Add(b.Sub(a).Scale(k)), rate).Sub(a) == b.Sub(a).Scale(1.0 - rate + rate * k)
  {
    var dx, dy := b.x - a.x, b.y - a.y;
    var kdx, kdy := k * dx, k * dy;
    var p := b.Lerp(a.Add(b.Sub(a).Scale(k)), rate);
    assert p.x - a.x == dx + rate * (kdx - dx);
    assert p.y - a.y == dy + rate * (kdy - dy);
    var f := 1.0 - rate + rate * k;
    assert f * dx == dx + rate * (kdx - dx);
    assert f * dy == dy + rate * (kdy - dy);
  }

  /**
    A corrected joint lands on the ray from `a` through its old position `b`:
    its offset from `a` is the old offset scaled by `1 - rate + rate * distance / |b - a|`.
   */
  lemma CorrectOnRay(c: DistanceConstraint, num: Numerics, a: Vec2, b: Vec2)
    requires num.Lawful()
    requires !Satisfied(c, a, b)
    ensures 0.0 < num.Length(b.Sub(a))
    ensures c.distance < num.Length(b.Sub(a)) && -c.distance < num.Length(b.Sub(a))
    ensures num.Length(b.Sub(a)) * num.Length(b.Sub(a)) == b.Sub(a).LengthSquared()
    ensures Correct(c, num, a, b).Sub(a)
         == b.Sub(a).Scale(1.0 - c.rate + c.rate * (c.distance / num.Length(b.Sub(a))))
  {
    var delta := b.Sub(a);
    var s := num.Length(delta);
    SqrtAbove(num, delta.LengthSquared(), c.distance);
    var k := c.distance / s;
    assert delta.Scale(c.distance).Div(s) == delta.Scale(k);
    LerpAlongRay(a, b, k, c.rate);
  }

  /**
    For a rate between 0 and 1 and a non-negative distance, a corrected pair's
    new separation is `(1 - rate) * old + rate * distance`, which lies between
    `distance` and the old separation: the correction never overshoots.
   */
  lemma CorrectSeparation(c: DistanceConstraint, num: Numerics, a: Vec2, b: Vec2)
    requires num.Lawful()
    requires 0.0 <= c.rate <= 1.0 && 0.0 <= c.distance
    requires !Satisfied(c, a, b)
    ensures var old_ := num.Length(b.Sub(a));
            var new_ := num.Length(Correct(c, num, a, b).Sub(a));
            && new_ == (1.0 - c.rate) * old_ + c.rate * c.distance
            && c.distance <= new_ <= old_
  {
    var delta := b.Sub(a);
    var s := num.Length(delta);
    CorrectOnRay(c, num, a, b);
    var f := 1.0 - c.rate + c.rate * (c.distance / s);
    var g := (1.0 - c.rate) * s + c.rate * c.distance;
    RelaxedFactor(s, c.distance, c.rate, f, g);
    ScaledLength(num, delta, f, s, g);
    var off := Correct(c, num, a, b).Sub(a);
    assert off == delta.Scale(f);
    assert num.Length(off) == g;
  }

  /** Scaling a vector of length `s` by `f`, with `f * s == g >= 0`, gives a vector of length `g`. */
  lemma ScaledLength(num: Numerics, v: Vec2, f: real, s: real, g: real)
    requires num.Lawful()
    requires s * s == v.LengthSquared()
    requires f * s == g && 0.0 <= g
    ensures num.Length(v.Scale(f)) == g
  {
    var w := v.Scale(f);
    ScaleLengthSquared(v, f);
    var L := v.LengthSquared();
    assert w.LengthSquared() == f * f * L;
    SquareOfProduct(f, s);
    assert f * f * L == g * g;
    SqrtOfSquare(num, g);
    assert num.Length(w) == num.sqrt(g * g);
  }

  /** The scale factor of a corrected offset, multiplied out by the old separation `s`. */
  lemma RelaxedFactor(s: real, d: real, rate: real, f: real, g: real)
    requires 0.0 <= d < s && 0.0 <= rate <= 1.0
    requires f == 1.0 - rate + rate * (d / s)
    requires g == (1.0 - rate) * s + rate * d
    ensures f * s == g
    ensures d <= g <= s
  {
    var q := d / s;
    assert q * s == d;
    assert f * s == s - rate * s + rate * (q * s);
    ProductNonNegative(rate, s - d);
    ProductNonNegative(1.0 - rate, s - d);
  }

  lemma SquareOfProduct(f: real, s: real)
    ensures f * f * (s * s) == (f * s) * (f * s)
  {
  }

  /** With rate 1 a corrected joint lands exactly `distance` from its predecessor. */
  lemma CorrectRateOneLandsOnBound(c: DistanceConstraint, num: Numerics, a: Vec2, b: Vec2)
    requires num.Lawful()
    requires c.rate == 1.0
    requires !Satisfied(c, a, b)
    ensures Correct(c, num, a, b).Sub(a).LengthSquared() == DistanceSquared(c)
  {
    var delta := b.Sub(a);
    var L := delta.LengthSquared();
    var s := num.Length(delta);
    CorrectOnRay(c, num, a, b);
    var k := c.distance / s;
    assert 1.0 - c.rate + c.rate * k == k;
    ScaleLengthSquared(delta, k);
    assert s * s == L;
    calc {
      k * k * L;
      k * k * (s * s);
      (k * s) * (k * s);
      { assert k * s == c.distance; }
      c.distance * c.distance;
    }
  }

  /** With rate 1 every pair ends at most `distance` apart, whether or not it was corrected. */
  lemma CorrectRateOneWithin(c: DistanceConstraint, num: Numerics, a: Vec2, b: Vec2)
    requires num.Lawful()
    requires c.rate == 1.0
    ensures Satisfied(c, a, Correct(c, num, a, b))
  {
    if !Satisfied(c, a, b) {
      CorrectRateOneLandsOnBound(c, num, a, b);
    }
  }

  lemma ProductNonNegative(x: real, y: real)
    requires 0.0 <= x && 0.0 <= y
    ensures 0.0 <= x * y
  {
  }

  /** If every consecutive pair already satisfies the bound, the pass changes nothing. */
  lemma {:induction false} ApplySatisfiedIsIdentity(c: DistanceConstraint, num: Numerics, js: seq<Joint>)
    requires num.Lawful()
    requires PairsWithin(js, c.distance)
    ensures Apply(c, num, js) == js
  {
    var r := Apply(c, num, js);
    SatisfiedPrefixUnchanged(c, num, js, |js|);
    assert forall j :: 0 <= j < |js| ==> r[j] == js[j];
  }

  lemma {:induction false} SatisfiedPrefixUnchanged(c: DistanceConstraint, num: Numerics, js: seq<Joint>, n: nat)
    requires num.Lawful()
    requires n <= |js|
    requires PairsWithin(js, c.distance)
    ensures forall j :: 0 <= j < n ==> Apply(c, num, js)[j] == js[j]
  {
    if 1 < n {
      SatisfiedPrefixUnchanged(c, num, js, n - 1);
      var r := Apply(c, num, js);
      assert r[n - 1].pos == Correct(c, num, r[n - 2].pos, js[n - 1].pos);
      assert r[n - 1] == js[n - 1].(pos := r[n - 1].pos);
    }
  }

  /** With rate 0 the pass changes nothing. */
  lemma {:induction false} ApplyRateZeroIsIdentity(c: DistanceConstraint, num: Numerics, js: seq<Joint>)
    requires num.Lawful()
    requires c.rate == 0.0
    ensures Apply(c, num, js) == js
  {
    var r := Apply(c, num, js);
    forall k | 1 <= k < |js|
      ensures r[k].pos == js[k].pos
    {
      var a, b := r[k - 1].pos, js[k].pos;
      if !Satisfied(c, a, b) {
        LerpEnds(b, b);
        assert Correct(c, num, a, b) == b;
      }
    }
    assert forall j :: 0 <= j < |js| ==> r[j] == js[j].(pos := r[j].pos);
    assert forall j :: 0 <= j < |js| ==> r[j] == js[j];
  }

  /** After a rate-1 pass every consecutive pair is within `distance`. */
  lemma ApplyRateOneSatisfies(c: DistanceConstraint, num: Numerics, js: seq<Joint>)
    requires num.Lawful()
    requires c.rate == 1.0
    ensures PairsWithin(Apply(c, num, js), c.distance)
  {
    var r := Apply(c, num, js);
    forall j | 0 <= j < |r| - 1
      ensures r[j + 1].pos.Sub(r[j].pos).LengthSquared() <= c.distance * c.distance
    {
      CorrectRateOneWithin(c, num, r[j].pos, js[j + 1].pos);
    }
  }

  /** A rate-1 pass is idempotent: its result already satisfies every pair. */
  lemma ApplyRateOneIdempotent(c: DistanceConstraint, num: Numerics, js: seq<Joint>)
    requires num.Lawful()
    requires c.rate == 1.0
    ensures Apply(c, num, Apply(c, num, js)) == Apply(c, num, js)
  {
    var r := Apply(c, num, js);
    ApplyRateOneSatisfies(c, num, js);
    ApplySatisfiedIsIdentity(c, num, r);
  }

  /**
    For 0 <= rate <= 1 and distance >= 0, each joint's new separation from its
    predecessor lies between `distance` and the separation it had when its
    pair was reached; a pair that was already close enough keeps its separation.
   */
  lemma ApplyNeverOvershoots(c: DistanceConstraint, num: Numerics, js: seq<Joint>, j: nat)
    requires num.Lawful()
    requires 0.0 <= c.rate <= 1.0 && 0.0 <= c.distance
    requires j + 1 < |js|
    ensures var r := Apply(c, num, js);
            var before := num.Length(js[j + 1].pos.Sub(r[j].pos));
            var after := num.Length(r[j + 1].pos.Sub(r[j].pos));
            if Satisfied(c, r[j].pos, js[j + 1].pos) then after == before
            else c.distance <= after <= before
  {
    var r := Apply(c, num, js);
    if !Satisfied(c, r[j].pos, js[j + 1].pos) {
      CorrectSeparation(c, num, r[j].pos, js[j + 1].pos);
    }
  }

  /**
    A two-joint chain whose joints are `old_` apart, with `old_` above a
    non-negative `distance`, ends `(1 - rate) * old_ + rate * distance` apart:
    20 apart with distance 10 gives 10 at rate 1 and 15 at rate 0.5.
   */
  lemma TwoJointChain(c: DistanceConstraint, num: Numerics, a: Joint, b: Joint)
    requires num.Lawful()
    requires 0.0 <= c.rate <= 1.0 && 0.0 <= c.distance
    requires c.distance < num.Length(b.pos.Sub(a.pos))
    ensures var r := Apply(c, num, [a, b]);
            && r[0] == a
            && num.Length(r[1].pos.Sub(a.pos))
               == (1.0 - c.rate) * num.Length(b.pos.Sub(a.pos)) + c.rate * c.distance
  {
    var delta := b.pos.Sub(a.pos);
    var s := num.Length(delta);
    assert 0.0 <= s && s * s == delta.LengthSquared();
    SquareStrictlyMonotone(c.distance, s);
    CorrectSeparation(c, num, a.pos, b.pos);
  }
}

=== FILE: fabrik_constraint.dfy ===
/**
  The limb-following constraint. Each frame it derives a preferred target
  from the attachment point, moves its tracked target there only when the
  two have drifted too far apart or the limb is over-stretched (hysteresis),
  puts the last joint on the tracked target, relaxes the chain from the end
  with the backward distance pass, puts the first joint back on the
  attachment point, and re-spaces the chain from the front with a rate-1
  forward distance pass.
 */
module FabrikConstraints {
  import opened Vectors
  import opened Skeleton
  import DistanceConstraints

  /** The descriptor's default values. */
  const DefaultDescriptor := FabrikDescriptor(10.0, 0.25, 0.0, 20.0, 20.0)

  /** `FabrikConstraint::new`. */
  function New(d: FabrikDescriptor): (f: FabrikConstraint)
    ensures f.forward.distance == d.jointDistance && f.forward.rate == 1.0
    ensures f.backward.distance == d.jointDistance && f.backward.rate == d.rate
    ensures f.targetAngle == d.targetAngle && f.targetDistance == d.targetDistance
    ensures f.maxDistance == d.maxDistance
    ensures f.currentTarget == Zero && f.preferredTarget == Zero
  {
    FabrikConstraint(
      DistanceConstraints.New(d.jointDistance, 1.0),
      DistanceConstraints.New(d.jointDistance, d.rate),
      d.targetAngle, d.targetDistance, d.maxDistance,
      Zero, Zero)
  }

  /**
    The default limb: joints 10 apart, a forward pass at rate 1 and a backward
    pass at rate 0.25, a target straight ahead 20 away that is chased once it
    drifts more than 20 from where it should be.
   */
  lemma NewDefault()
    ensures var f := New(DefaultDescriptor);
            && f.forward == DistanceConstraint(10.0, 1.0)
            && f.backward == DistanceConstraint(10.0, 0.25)
            && f.targetAngle == 0.0 && f.targetDistance == 20.0 && f.maxDistance == 20.0
            && f.currentTarget == Zero && f.preferredTarget == Zero
  {
  }

  /**
    The backward distance mode, which walks the chain from its last joint to
    its first. Its algorithm is not part of this model: it is a parameter
    that gives, for the constraint, the chain's positions and an index, the
    new position of that joint.
   */
  type BackwardPass = (DistanceConstraint, seq<Vec2>, nat) -> Vec2

  /** Running the backward pass changes positions only, whatever the pass does. */
  function Backward(back: BackwardPass, c: DistanceConstraint, js: seq<Joint>): (r: seq<Joint>)
    ensures OnlyPositionsChanged(js, r)
  {
    var ps := Positions(js);
    seq(|js|, i requires 0 <= i < |js| => js[i].(pos := back(c, ps, i)))
  }

  /** The constraint's state after a frame, and the chain it produced. */
  datatype Outcome = Outcome(constraint: FabrikConstraint, joints: seq<Joint>)

  /** The point `targetDistance` away from the attachment point, at `targetAngle` from its heading. */
  function PreferredTarget(f: FabrikConstraint, num: Numerics, ap: AttachmentPoint): Vec2 {
    ap.position.Add(num.fromAngle(ap.angle + f.targetAngle).Scale(f.targetDistance))
  }

  /**
    The tracked target jumps to the preferred one when they are more than
    `maxDistance` apart, or when the chain's first and last joints are more
    than `targetDistance` apart.
   */
  predicate Retargets(f: FabrikConstraint, num: Numerics, preferred: Vec2, js: seq<Joint>)
    requires 0 < |js|
  {
    || num.Distance(f.currentTarget, preferred) > f.maxDistance
    || num.Distance(js[0].pos, js[|js| - 1].pos) > f.targetDistance
  }

  /** The chain with its last joint moved to `t`. */
  function PinLast(js: seq<Joint>, t: Vec2): (r: seq<Joint>)
    requires 0 < |js|
    ensures OnlyPositionsChanged(js, r)
    ensures r[|r| - 1].pos == t
    ensures forall i :: 0 <= i < |js| - 1 ==> r[i] == js[i]
  {
    js[|js| - 1 := js[|js| - 1].(pos := t)]
  }

  /** The chain with its first joint moved to `p`. */
  function PinFirst(js: seq<Joint>, p: Vec2): (r: seq<Joint>)
    requires 0 < |js|
    ensures OnlyPositionsChanged(js, r)
    ensures r[0].pos == p
    ensures forall i :: 0 < i < |js| ==> r[i] == js[i]
  {
    js[0 := js[0].(pos := p)]
  }

  /**
    `apply`. Without an attachment point, or on an empty chain, nothing
    changes, the stored targets included. Otherwise the preferred target is
    recomputed; the tracked target takes its value exactly when `Retargets`
    holds of the chain as it was before any joint moved; the last joint is
    put on the tracked target before the backward pass; and the first joint
    ends on the attachment point. Only positions and the two targets change.
   */
  function Apply(f: FabrikConstraint, js: seq<Joint>, ap: Option<AttachmentPoint>, num: Numerics, back: BackwardPass)
    : (o: Outcome)
    requires num.Lawful()
    ensures OnlyPositionsChanged(js, o.joints)
    ensures o.constraint == f.(currentTarget := o.constraint.currentTarget,
                               preferredTarget := o.constraint.preferredTarget)
    ensures ap.None? || |js| == 0 ==> o == Outcome(f, js)
    ensures ap.Some? && 0 < |js| ==>
      && o.constraint.preferredTarget == PreferredTarget(f, num, ap.value)
      && (Retargets(f, num, o.constraint.preferredTarget, js) ==>
            o.constraint.currentTarget == o.constraint.preferredTarget)
      && (!Retargets(f, num, o.constraint.preferredTarget, js) ==>
            o.constraint.currentTarget == f.currentTarget)
      && o.joints == DistanceConstraints.Apply(f.forward, num,
           PinFirst(Backward(back, f.backward, PinLast(js, o.constraint.currentTarget)), ap.value.position))
      && o.joints[0].pos == ap.value.position
  {
    if ap.None? || |js| == 0 then
      Outcome(f, js)
    else
      var preferred := PreferredTarget(f, num, ap.value);
      var current := if Retargets(f, num, preferred, js) then preferred else f.currentTarget;
      var pulled := Backward(back, f.backward, PinLast(js, current));
      var anchored := PinFirst(pulled, ap.value.position);
      Outcome(
        f.(currentTarget := current, preferredTarget := preferred),
        DistanceConstraints.Apply(f.forward, num, anchored))
  }

  /**
    When the forward pass runs at rate 1 (as `New` builds it), every
    consecutive pair of the resulting chain is at most the joint distance apart.
   */
  lemma ApplySpacesJoints(f: FabrikConstraint, js: seq<Joint>, ap: AttachmentPoint, num: Numerics, back: BackwardPass)
    requires num.Lawful()
    requires f.forward.rate == 1.0
    requires 0 < |js|
    ensures PairsWithin(Apply(f, js, Some(ap), num, back).joints, f.forward.distance)
  {
    var o := Apply(f, js, Some(ap), num, back);
    var anchored := PinFirst(Backward(back, f.backward, PinLast(js, o.constraint.currentTarget)), ap.position);
    DistanceConstraints.ApplyRateOneSatisfies(f.forward, num, anchored);
  }

  /**
    A constraint built by `New` keeps every pair of its chain within
    `jointDistance` on every frame it runs, because applying it never changes
    its forward pass.
   */
  lemma {:induction false} NewSpacesJointsEveryFrame(
    d: FabrikDescriptor, frames: seq<AttachmentPoint>, js: seq<Joint>, num: Numerics, back: BackwardPass)
    requires num.Lawful()
    requires 0 < |js| && 0 < |frames|
    ensures var o := Run(New(d), js, frames, num, back);
            PairsWithin(o.joints, d.jointDistance) && o.joints[0].pos == frames[|frames| - 1].position
  {
    var f := New(d);
    var o := Run(f, js, frames, num, back);
    var prev := Run(f, js, frames[..|frames| - 1], num, back);
    RunKeepsForward(f, js, frames[..|frames| - 1], num, back);
    assert o == Apply(prev.constraint, prev.joints, Some(frames[|frames| - 1]), num, back);
    ApplySpacesJoints(prev.constraint, prev.joints, frames[|frames| - 1], num, back);
  }

  /** Applying the constraint once per frame, with the given attachment points in order. */
  function Run(f: FabrikConstraint, js: seq<Joint>, frames: seq<AttachmentPoint>, num: Numerics, back: BackwardPass)
    : (o: Outcome)
    requires num.Lawful()
    ensures OnlyPositionsChanged(js, o.joints)
  {
    if frames == [] then
      Outcome(f, js)
    else
      var prev := Run(f, js, frames[..|frames| - 1], num, back);
      Apply(prev.constraint, prev.joints, Some(frames[|frames| - 1]), num, back)
  }

  /** Applying the constraint frame after frame never changes its forward pass. */
  lemma {:induction false} RunKeepsForward(
    f: FabrikConstraint, js: seq<Joint>, frames: seq<AttachmentPoint>, num: Numerics, back: BackwardPass)
    requires num.Lawful()
    ensures Run(f, js, frames, num, back).constraint.forward == f.forward
  {
    if frames != [] {
      RunKeepsForward(f, js, frames[..|frames| - 1], num, back);
    }
  }
}

=== FILE: joints.dfy ===
/** Construction of a joint. */
module Joints {
  import opened Vectors
  import opened Skeleton

  /** `Joint::new2`: a joint at `pos` with the given radius, heading 0 and no child bodies; the radius is not validated. */
  function New2(pos: Vec2, radius: real): (j: Joint)
    ensures j.pos == pos && j.radius == radius
    ensures j.angle == 0.0 && j.children == []
  {
    Joint(pos, radius, 0.0, [])
  }

  /** `Joint::new`: the same joint built from separate coordinates. */
  function New(x: real, y: real, radius: real): (j: Joint)
    ensures j.pos.x == x && j.pos.y == y && j.radius == radius
    ensures j.angle == 0.0 && j.children == []
  {
    New2(Vec2(x, y), radius)
  }

  /** Building from coordinates is building from the point they form. */
  lemma NewIsNew2(x: real, y: real, radius: real)
    ensures New(x, y, radius) == New2(Vec2(x, y), radius)
  {
  }
}

=== FILE: skeleton.dfy ===
/**
  The data model of the creature skeleton: joints, the bodies that own
  chains of joints, the three constraint kinds and the attachment point a
  parent passes to a child body.

  `Joint` and `Body` are mutually recursive (a joint owns child bodies, a
  body owns joints), and a body owns its constraints, so all of them are
  declared together here. Every value is immutable: an operation that the
  program performs in place returns the updated value instead.
 */
module Skeleton {
  import opened Vectors
  import opened Colors

  /** A point of a chain, with a radius (silhouette thickness) and a derived heading. */
  datatype Joint = Joint(pos: Vec2, radius: real, angle: real, children: seq<Body>)

  /** An ordered chain of joints, the constraints applied to it, and where it hangs off its parent joint. */
  datatype Body = Body(
    color: Color,
    joints: seq<Joint>,
    constraints: seq<Constraint>,
    attachmentAngle: real,
    attachmentOffset: real
  )

  datatype Option<T> = None | Some(value: T)

  /** Where, and at what heading, a child body is anchored this frame. */
  datatype AttachmentPoint = AttachmentPoint(position: Vec2, angle: real)

  /** "Consecutive joints at most `distance` apart", relaxed at `rate` per application. */
  datatype DistanceConstraint = DistanceConstraint(distance: real, rate: real)

  /** "The bend at each middle joint is at least `angle`", relaxed at `rate` per application. */
  datatype AngleConstraint = AngleConstraint(angle: real, rate: real)

  /** The construction parameters of a limb-following constraint. */
  datatype FabrikDescriptor = FabrikDescriptor(
    jointDistance: real,
    rate: real,
    targetAngle: real,
    targetDistance: real,
    maxDistance: real
  )

  /**
    A limb that follows a target derived from its attachment point. The two
    target positions are the state it carries from one frame to the next.
   */
  datatype FabrikConstraint = FabrikConstraint(
    forward: DistanceConstraint,
    backward: DistanceConstraint,
    targetAngle: real,
    targetDistance: real,
    maxDistance: real,
    currentTarget: Vec2,
    preferredTarget: Vec2
  )

  datatype Constraint =
    | Distance(distance: DistanceConstraint)
    | Angle(angle: AngleConstraint)
    | Fabrik(fabrik: FabrikConstraint)

  /** The positions of a chain, in order. */
  function Positions(js: seq<Joint>): (ps: seq<Vec2>)
    ensures |ps| == |js|
    ensures forall i :: 0 <= i < |js| ==> ps[i] == js[i].pos
  {
    seq(|js|, i requires 0 <= i < |js| => js[i].pos)
  }

  /** `r` is `js` with at most the positions changed: same length, radii, angles and children. */
  ghost predicate OnlyPositionsChanged(js: seq<Joint>, r: seq<Joint>) {
    |r| == |js| && forall i :: 0 <= i < |js| ==> r[i] == js[i].(pos := r[i].pos)
  }

  /** `r` is `js` with at most the angles changed. */
  ghost predicate OnlyAnglesChanged(js: seq<Joint>, r: seq<Joint>) {
    |r| == |js| && forall i :: 0 <= i < |js| ==> r[i] == js[i].(angle := r[i].angle)
  }

  /** Every consecutive pair of the chain is at most `d` apart (compared as squares, as the program does). */
  ghost predicate PairsWithin(js: seq<Joint>, d: real) {
    forall i :: 0 <= i < |js| - 1 ==> js[i + 1].pos.Sub(js[i].pos).LengthSquared() <= d * d
  }
}

=== FILE: vectors.dfy ===
/**
  Two-dimensional vectors over the reals, standing in for the single-precision
  `Vec2` of the graphics library the solver is written against.

  The operations whose value is a polynomial in the coordinates (sum,
  difference, scaling, linear interpolation, squared length, perpendicular
  dot product) are modelled exactly. Square root and the trigonometric
  helpers are not definable here; they are supplied as a `Numerics` record
  of total functions, and `Numerics.Lawful` states the only laws the proofs
  rely on.
 */
module Vectors {

  datatype Vec2 = Vec2(x: real, y: real) {

    function Add(v: Vec2): Vec2 {
      Vec2(x + v.x, y + v.y)
    }

    function Sub(v: Vec2): Vec2 {
      Vec2(x - v.x, y - v.y)
    }

    /** Scalar times vector (`s * v` in the source). */
    function Scale(s: real): Vec2 {
      Vec2(s * x, s * y)
    }

    /** Vector divided by a scalar (`v / s` in the source). */
    function Div(s: real): Vec2
      requires s != 0.0
    {
      Vec2(x / s, y / s)
    }

    /** `a.lerp(b, t)` is `a + (b - a) * t`. */
    function Lerp(b: Vec2, t: real): Vec2 {
      Add(b.Sub(this).Scale(t))
    }

    function LengthSquared(): real {
      x * x + y * y
    }

    /** The z component of the 3-D cross product of `this` and `v`. */
    function PerpDot(v: Vec2): real {
      x * v.y - y * v.x
    }
  }

  const Zero := Vec2(0.0, 0.0)

  /**
    The floating-point library functions the solver calls, as total functions.
    `angleBetween(u, v)` is the signed angle from `u` to `v`; `toAngle(v)` is
    the angle of `v` from the positive x axis; `fromAngle(a)` is the unit
    vector at angle `a`; `normalize(v)` is `v` scaled to unit length.
   */
  datatype Numerics = Numerics(
    sqrt: real -> real,
    fromAngle: real -> Vec2,
    toAngle: Vec2 -> real,
    angleBetween: (Vec2, Vec2) -> real,
    normalize: Vec2 -> Vec2
  ) {

    /** The laws of square root and of `fromAngle` that the proofs use; nothing is assumed of the rest. */
    ghost predicate Lawful() {
      && (forall t :: 0.0 <= t ==> 0.0 <= sqrt(t) && sqrt(t) * sqrt(t) == t)
      && (forall a :: fromAngle(a).LengthSquared() == 1.0)
    }

    /** `v.length()` */
    function Length(v: Vec2): real {
      sqrt(v.LengthSquared())
    }

    /** `a.distance(b)`, the length of `a - b`. */
    function Distance(a: Vec2, b: Vec2): real {
      Length(a.Sub(b))
    }
  }

  lemma LerpEnds(a: Vec2, b: Vec2)
    ensures a.Lerp(b, 0.0) == a
    ensures a.Lerp(b, 1.0) == b
  {
  }

  /** Scaling a vector scales its squared length by the square of the factor. */
  lemma ScaleLengthSquared(v: Vec2, s: real)
    ensures v.Scale(s).LengthSquared() == s * s * v.LengthSquared()
  {
    calc {
      v.Scale(s).LengthSquared();
      (s * v.x) * (s * v.x) + (s * v.y) * (s * v.y);
      s * s * (v.x * v.x + v.y * v.y);
    }
  }

  /** A lawful square root of a square of a non-negative number gives that number back. */
  lemma SqrtOfSquare(num: Numerics, y: real)
    requires num.Lawful()
    requires 0.0 <= y
    ensures num.sqrt(y * y) == y
  {
    var s := num.sqrt(y * y);
    assert 0.0 <= s && s * s == y * y;
    if s < y {
      SquareStrictlyMonotone(s, y);
    } else if y < s {
      SquareStrictlyMonotone(y, s);
    }
  }

  lemma SquareStrictlyMonotone(a: real, b: real)
    requires 0.0 <= a < b
    ensures a * a < b * b
  {
    var aa, ab, bb := a * a, a * b, b * b;
    assert aa <= ab;
    assert ab < bb;
  }

  /** The square root of a positive number is positive and strictly exceeds every number whose square is smaller. */
  lemma SqrtAbove(num: Numerics, t: real, d: real)
    requires num.Lawful()
    requires d * d < t
    ensures 0.0 < num.sqrt(t)
    ensures d < num.sqrt(t) && -d < num.sqrt(t)
  {
    var s := num.sqrt(t);
    assert 0.0 <= d * d;
    assert 0.0 <= s && s * s == t;
  }
}
